=== FILE: README.md ===
# Twitch_Monitor registry and event handlers in Dafny

Twitch_Monitor tracks a list of Twitch streamers. A small Flask server lets an
administrator add and remove streamers behind a password and lists them live
first. A separate monitor subscribes to EventSub notifications and updates each
streamer's stored record when the stream goes online, goes offline or changes
title or category.

This project models that behaviour as a state machine over the store of
`TwitchUser` records. The store is an immutable `seq<TwitchUser>` in insertion
(rowid) order, and every operation is a pure function from store to store:

- `models.dfy` (`Models`): the `TwitchUser` record, its column defaults, and the
  two distinctness facts. Distinct ids is the primary-key fact. Distinct
  usernames is not declared by the schema. It holds while requests are handled
  one at a time, because the add route refuses a name already stored. The
  model proves that for requests handled one at a time and never assumes it.
- `text.dfy` (`Text`): Python's `str.strip()` with its full white-space set, and
  `str.replace` with a non-empty pattern. For every pattern it proves what
  happens at the first occurrence, which fixes the result on every input. It
  also proves that a replacement which cannot recreate the pattern removes
  every occurrence, so a second replacement changes nothing.
- `decoding.dfy` (`Decoding`): what the two HTTP fetchers do with a response.
  The response is an abstract optional `data` list.
- `registry.dfy` (`Registry`): the add route, the remove route and the order of
  the index page.
- `events.dfy` (`Events`): the `stream.online`, `stream.offline` and
  `channel.update` handlers.
- `monitor.dfy` (`Monitor`): the start-up loop, which subscribes the three
  handlers for each tracked user that the users endpoint found. Nothing in
  the loop catches an exception, so the first lookup or subscription call
  that raises ends it. Whether a subscription call raises may depend on the
  subscriptions the run has already made.
- `lifecycle.dfy` (`Lifecycle`): any interleaving of add requests, remove
  requests and events, each taken as one atomic step, and the invariants that
  survive all of them.

Choices that the Python code leaves to its libraries:

- **New ids.** Ids are allocated by SQLite's rowid rule: 1 for an empty table,
  otherwise one more than the largest id in use (`Models.NextId`). The Python
  code leaves this to the database.
- **Profile image default.** The add route passes the fetched profile image,
  and the fetch returns `None` when the lookup finds no user. SQLAlchemy leaves
  a `None` value of a column that has a default out of the INSERT, so the
  column default `""` is stored. `profileImageUrl` is therefore a plain string,
  and `Models.NewUser` stores the fetched URL or `""`.
- **Password comparison.** The password check compares two optional strings.
  If no admin password is configured, a request without a password field is
  let through (`Registry.UnconfiguredGateIsOpen`).
- **Listing ties.** The index query sorts on the live flag only, so SQL does
  not fix the order of records with equal flags. The model keeps store order
  among them.
- **Which record `.first()` returns.** The event handlers look a login up with
  `filter_by(...).first()`, which has no `ORDER BY`. SQL does not fix which
  matching row comes back. The model takes the first match in store order
  (`Events.FirstMatch`). While requests are handled one at a time, adding a
  streamer keeps usernames distinct (`Lifecycle.RunPreservesInvariants`). So
  at most one record matches while requests are handled one at a time, and
  the choice then makes no difference (`Events.FirstMatchIsOnlyMatch`).

## Model

| member | source | states |
|---|---|---|
| Models.NewUser | Twitch_Monitor/models.py:5-12 | A record built from a username and an optional profile image has `is_live` false, the image URL when one was fetched and the column default `""` otherwise, and the other text columns at their default `""` |
| Models.MaxId | Twitch_Monitor/models.py:6 | The largest id of a non-empty store is some record's id and bounds every id |
| Models.NextId | Twitch_Monitor/models.py:6 | The id given to a new row is 1 on an empty table and is greater than, hence different from, every id in use |
| Models.Ids | Twitch_Monitor/models.py:6 | The id set contains exactly the ids of the records |
| Text.TrimLeft | Twitch_Monitor/server.py:86 | The result is a suffix of the input, everything dropped is white space, and the result does not start with white space |
| Text.TrimRight | Twitch_Monitor/server.py:86 | The result is a prefix of the input, everything dropped is white space, and the result does not end with white space |
| Text.Strip | Twitch_Monitor/server.py:86 | The stripped name is a slice of the input with white space only around it, and it neither starts nor ends with white space |
| Text.StripSlice | Twitch_Monitor/server.py:86 | Trimming left then right leaves a slice of the input with only white space around it |
| Text.StripFixpoint | Twitch_Monitor/server.py:86 | `strip` leaves a string unchanged if and only if it has no white space at either end |
| Text.StripIdempotent | Twitch_Monitor/server.py:86 | Stripping an already stripped name changes nothing |
| Text.IsSpace | Twitch_Monitor/server.py:86 | The characters `str.strip()` removes: the code points for which Python's `str.isspace` holds (9-13, 28-32, U+0085, U+00A0, U+1680, U+2000-U+200A, U+2028, U+2029, U+202F, U+205F, U+3000) |
| Text.ReplaceAll | Twitch_Monitor/server.py:62 | `str.replace`: a left-to-right scan that replaces non-overlapping occurrences. Its value on every input is fixed by `Text.ReplaceAbsent` and `Text.ReplaceFirst` |
| Text.ReplaceAbsent | Twitch_Monitor/server.py:62 | `replace` leaves a string without the pattern unchanged |
| Text.ReplaceFirst | Twitch_Monitor/server.py:62 | For any pattern: at the first occurrence of the pattern, the text before it is copied, the occurrence becomes the replacement, and replacing continues right after it |
| Text.ReplaceBefore | Twitch_Monitor/server.py:62 | The induction behind `Text.ReplaceFirst`, with the text after the occurrence held fixed |
| Text.ReplaceHead | Twitch_Monitor/server.py:62 | An input starting with the pattern yields an output starting with the replacement |
| Text.ReplacePrefix | Twitch_Monitor/server.py:62 | If the output starts with a string free of the replacement's first character, the input started with that string too |
| Text.OccursAfterPrefix | Twitch_Monitor/server.py:62 | Past a prefix, the pattern occurs in a concatenation exactly where it occurs in the second part |
| Text.NoOccurrenceAfterReplacement | Twitch_Monitor/server.py:62 | A safe replacement in front of a pattern-free string creates no occurrence |
| Text.NoOccurrenceAfterChar | Twitch_Monitor/server.py:62 | One character in front of a pattern-free string can create an occurrence only at the front |
| Text.ReplaceRemovesAll | Twitch_Monitor/server.py:62 | When the replacement cannot recreate the pattern, no occurrence of the pattern survives `replace` |
| Text.ReplaceIdempotent | Twitch_Monitor/server.py:62 | Under the same condition, replacing twice equals replacing once |
| Decoding.DisplaySizeIsSafe | Twitch_Monitor/server.py:62 | `40x40` cannot recreate the `{width}x{height}` placeholder |
| Decoding.ResizeFacts | Twitch_Monitor/server.py:62 | Resizing removes every placeholder, and a URL without a placeholder is kept as is |
| Decoding.ResizeBoxArt | Twitch_Monitor/server.py:62 | The resized box-art URL contains no `{width}x{height}` placeholder, and a URL without one is returned unchanged |
| Decoding.ResizeFirstOccurrence | Twitch_Monitor/server.py:62 | At the first placeholder, the URL is copied up to it, the placeholder becomes `40x40`, and the rest is resized in turn. With the unchanged-when-absent clause of `Decoding.ResizeBoxArt` this fixes the resized URL of every template |
| Decoding.ResizeIdempotent | Twitch_Monitor/server.py:62 | Resizing an already resized URL changes nothing |
| Decoding.ResizeExample | Twitch_Monitor/server.py:62 | `{width}x{height}.jpg` becomes `40x40.jpg` |
| Decoding.DecodeProfileImage | Twitch_Monitor/server.py:39-42 | The result is present exactly when `data` is a non-empty list, and it is then the first user's image URL |
| Decoding.DecodeGame | Twitch_Monitor/server.py:60-65 | Both components are present exactly when `data` is non-empty. The name is the first game's name. The art URL is the first game's box-art URL resized (`Decoding.ResizeFirstOccurrence` fixes that value), so it has no placeholder and equals the original URL when that URL had none. Otherwise the result is `(None, None)` |
| Decoding.DecodeGameFirstOnly | Twitch_Monitor/server.py:61-62 | Games after the first never affect the decoded result |
| Registry.Authorized | Twitch_Monitor/server.py:81-82 | The password gate compares the optional form field with the optional configured password, so two absent values match |
| Registry.UnconfiguredGateIsOpen | Twitch_Monitor/server.py:81-84 | With no admin password configured, an add or remove request without a password field is never answered with the access-denied outcome (the remove route's gate, lines 109-112, is the same) |
| Registry.AddStreamer | Twitch_Monitor/server.py:79-103 | A wrong password is refused exactly when the optional passwords differ. A stripped name already in the store is refused exactly when authorised. Both refusals leave the store unchanged. Success appends one record with the stripped name, a fresh id, `is_live` false, the first fetched user's image URL (or `""` when the fetch found none) and empty text fields, and leaves the existing records untouched |
| Registry.AddPreservesInvariants | Twitch_Monitor/server.py:89-101 | Adding keeps ids unique and usernames pairwise distinct |
| Registry.AddTwiceRefused | Twitch_Monitor/server.py:86-92 | A second add of a name that strips to the same username is refused and leaves the store unchanged |
| Registry.FindId | Twitch_Monitor/server.py:114 | The primary-key lookup finds the first record with the id, and finds nothing exactly when no record has it |
| Registry.RemoveStreamer | Twitch_Monitor/server.py:106-121 | A wrong password is refused exactly when the passwords differ. An authorised request for an id above 2^63-1, the largest SQLite integer, fails, because the driver raises on such a query parameter. A missing id is reported exactly when the request is authorised and the id fits. Refusals, failures and missing ids leave the store unchanged. Success deletes one record carrying the id and keeps the rest in order |
| Registry.DeletePreserves | Twitch_Monitor/server.py:116 | Deleting one record keeps all others in order, adds nothing, and keeps ids and usernames distinct |
| Registry.RemoveExactly | Twitch_Monitor/server.py:114-117 | With unique ids, a removal leaves no record with that id, keeps every other record, adds nothing, and keeps both distinctness invariants |
| Registry.WithLive | Twitch_Monitor/server.py:74 | The filter keeps exactly the records with the given live flag |
| Registry.WithLiveSnoc | Twitch_Monitor/server.py:74 | Filtering a store extended by one record extends the matching filter by that record |
| Registry.WithLiveSplit | Twitch_Monitor/server.py:74 | The live and offline parts together are the store, as a multiset |
| Registry.Listing | Twitch_Monitor/server.py:74 | The index listing is a permutation of the store in which every live record precedes every offline one |
| Registry.ListUsers | Twitch_Monitor/server.py:74 | The single-pass listing is a permutation of the store with live records first, and equals the reference listing |
| Events.FirstMatch | Twitch_Monitor/twitch_monitor.py:26 | The handlers' lookup finds the first record with the login, and finds nothing exactly when no record has it |
| Events.FirstMatchUnique | Twitch_Monitor/twitch_monitor.py:26 | At most one index is the first match |
| Events.FirstMatchIsOnlyMatch | Twitch_Monitor/twitch_monitor.py:26 | With distinct usernames, the first match is the only record with that login |
| Events.OnStreamOnline | Twitch_Monitor/twitch_monitor.py:23-29 | Only the first matching record changes, and only its `is_live`, which becomes true. Every other record and field is unchanged |
| Events.OnStreamOffline | Twitch_Monitor/twitch_monitor.py:34-41 | Only the first matching record changes, and only its `is_live`, which becomes false. Every other record and field is unchanged |
| Events.OnChannelUpdate | Twitch_Monitor/twitch_monitor.py:44-54 | Only the first matching record changes: its title and game name take the event's values. Its live flag and image URLs and all other records are unchanged |
| Events.Handle | Twitch_Monitor/twitch_monitor.py:23-54 | No event changes the store length, or any id, username or image URL. An event for an untracked login changes nothing. Only the first matching record can change |
| Events.HandleIgnoresBroadcasterId | Twitch_Monitor/twitch_monitor.py:24-26 | The event's broadcaster id, read but unused, never influences the store |
| Events.SameUsernamesSameMatches | Twitch_Monitor/twitch_monitor.py:26 | Stores with the same usernames position by position have the same first match |
| Events.HandleIdempotent | Twitch_Monitor/twitch_monitor.py:23-54 | Handling the same event twice gives the same store as handling it once |
| Events.HandlePreservesInvariants | Twitch_Monitor/twitch_monitor.py:23-54 | Handling an event keeps the id set, unique ids and distinct usernames |
| Events.LastLivenessWins | Twitch_Monitor/twitch_monitor.py:23-41 | After online then offline the store is as after offline alone, and symmetrically |
| Events.DistinctLoginsCommute | Twitch_Monitor/twitch_monitor.py:23-54 | Events for different logins can be handled in either order with the same result |
| Lifecycle.StepPreservesInvariants | Twitch_Monitor/server.py:79-121 | One add request, remove request or event, taken as an atomic step, keeps ids unique and usernames pairwise distinct. The events are the handlers at Twitch_Monitor/twitch_monitor.py:23-54 |
| Lifecycle.RunPreservesInvariants | Twitch_Monitor/server.py:89-101 | Any sequence of adds, removes and events, handled one at a time, keeps ids unique and usernames pairwise distinct, although the schema declares only the first |
| Lifecycle.DeniedRequestsAreInert | Twitch_Monitor/server.py:79-112 | Any sequence of add and remove requests that all fail the password gate leaves the store unchanged |
| Monitor.Triple | Twitch_Monitor/twitch_monitor.py:73-75 | A found user gets three subscriptions, one per topic, all on that user's broadcaster id |
| Monitor.SubscriptionsFor | Twitch_Monitor/twitch_monitor.py:70-75 | A user gets either no subscription or three. It gets three exactly when the lookup returned a non-empty `data` list, and all of them are on the first id in that list |
| Monitor.SubscribedForIff | Twitch_Monitor/twitch_monitor.py:70-75 | A user has a subscription for a topic and id exactly when the lookup returned non-empty `data` whose first id is that id |
| Monitor.Subscriptions | Twitch_Monitor/twitch_monitor.py:69-75 | The subscriptions made for the tracked users, in order, when no call raises: three for every user the lookup found |
| Monitor.SubscribedIffFound | Twitch_Monitor/twitch_monitor.py:69-75 | A subscription exists for a topic and id exactly when the lookup of some tracked user's login returned non-empty `data` whose first id is that id |
| Monitor.SubscribedOnlyIfFound | Twitch_Monitor/twitch_monitor.py:69-75 | Every subscription's id is the first id the lookup returned for some tracked user |
| Monitor.FoundIsSubscribed | Twitch_Monitor/twitch_monitor.py:69-75 | Every tracked user the lookup found is subscribed on all three topics with the first id returned |
| Monitor.Returned | Twitch_Monitor/twitch_monitor.py:69-70 | The number of lookups, in order, that return before the first call that raises: every earlier call returns, and the call at that position raises unless all calls returned |
| Monitor.ReturnedIs | Twitch_Monitor/twitch_monitor.py:69-70 | Those three properties determine the count |
| Monitor.LookupsReturned | Twitch_Monitor/twitch_monitor.py:69-70 | The users looked up before the first `get_users` call that raises: every earlier lookup answered, and the lookup at that position raised unless none did |
| Monitor.Accepted | Twitch_Monitor/twitch_monitor.py:73-75 | The number of calls, in order, that return when each sees the subscriptions made before it: every earlier call returns, and the call at that position raises unless all calls returned |
| Monitor.AcceptedFrom | Twitch_Monitor/twitch_monitor.py:73-75 | The scan behind `Monitor.Accepted` from a given call on, with the same three properties for the calls it passes |
| Monitor.AcceptedIs | Twitch_Monitor/twitch_monitor.py:73-75 | The three properties of `Monitor.Accepted` determine the count |
| Monitor.AcceptedFromIs | Twitch_Monitor/twitch_monitor.py:73-75 | The induction behind `Monitor.AcceptedIs` |
| Monitor.CallAccepted | Twitch_Monitor/twitch_monitor.py:73-75 | A call that returns passes the scan on to the next call |
| Monitor.CallRefused | Twitch_Monitor/twitch_monitor.py:73-75 | A call that raises ends the scan at that call |
| Monitor.AcceptedConcat | Twitch_Monitor/twitch_monitor.py:69-75 | Subscriptions that all returned, followed by a user's subscriptions that all returned after them, form one run that all returned |
| Monitor.Made | Twitch_Monitor/twitch_monitor.py:67-76 | The subscriptions the loop makes when calls may raise, each call seeing the subscriptions made before it in the run. They are a prefix of the subscriptions made when no call raises, every one of them was accepted after those before it, and they are all of those subscriptions when no lookup and no subscription call raises |
| Monitor.MadeAccepted | Twitch_Monitor/twitch_monitor.py:73-75 | The accepted prefix of the attempted calls is a run that all returned, and it is the whole list when every call returns |
| Monitor.SubscriptionsPrefix | Twitch_Monitor/twitch_monitor.py:69-75 | The subscriptions for the first users come first among those for more users |
| Monitor.MadeAtLookupStop | Twitch_Monitor/twitch_monitor.py:69-70 | When the lookup of user `i` raises, or no user is left, and every earlier subscription was accepted, the loop has made exactly the subscriptions of the users before `i` |
| Monitor.MadeAtListenStop | Twitch_Monitor/twitch_monitor.py:73-75 | When the `n`-th subscription call for user `i` raises, after the earlier users' subscriptions, the loop has made those and the first `n` of user `i` |
| Monitor.AcceptedAfter | Twitch_Monitor/twitch_monitor.py:69-75 | After a run of calls that all return, the first call that raises is the first one in the calls that follow, each seeing the run and the calls before it |
| Monitor.FirstFailureAfter | Twitch_Monitor/twitch_monitor.py:69-75 | A sequence that starts with calls that all return, followed by calls that first raise at position `m`, first raises at the run's length plus `m` |
| Monitor.ProgressSkip | Twitch_Monitor/twitch_monitor.py:70-71 | A user whose lookup answers with an empty `data` list adds no subscription, and the loop moves on |
| Monitor.ProgressFound | Twitch_Monitor/twitch_monitor.py:71-75 | A found user whose three subscription calls all return adds its triple, and the loop moves on |
| Monitor.SubscribeAll | Twitch_Monitor/twitch_monitor.py:67-76 | The start-up loop makes exactly `Monitor.Made`: one triple per found user and none for users with empty `data`, in order. It stops at the first lookup or subscription call that raises, including a subscription call refused because of what the run already made, and keeps what was made before it |
| Monitor.RepeatedIdStopsLoop | Twitch_Monitor/twitch_monitor.py:69-75 | Two stored users whose lookups resolve to one broadcaster id, such as "Ninja" and "ninja": when a repeated subscription is refused, the loop ends with the first user's three subscriptions |
| Monitor.BothLookedUp | Twitch_Monitor/twitch_monitor.py:69-75 | In that case both lookups answer and both users' triples are attempted |
| Monitor.SecondTripleRefused | Twitch_Monitor/twitch_monitor.py:73-75 | When a repeated subscription is refused, a triple attempted twice stops at the first call of the second copy |
| Monitor.RepeatRefused | Twitch_Monitor/twitch_monitor.py:73-75 | Three distinct calls attempted twice over, where a repeat is refused, stop after three |

## Left out

- Flask routing, templates, `flash` and `redirect`: presentation only. The flash message survives as the `Outcome` of a reply.
- The SQLAlchemy session and commit machinery: the store is a plain sequence, and each committed operation is one function application.
- The aiohttp requests, the event loop created in the add route, the Twitch client, OAuth and the EventSub websocket: network I/O in foreign libraries. A response is a parameter, given as an optional `data` list in which `None` stands for a missing `data` key and for every exception the fetchers catch.
- A KeyError inside a fetcher when a `data` element lacks a field: the response records always carry their fields. The fetcher would catch the error and return None.
- A missing `username` form field, which makes Flask answer 400: the field is a parameter and is always present.
- What follows a raising call in the monitor loop: the exception ends `run_monitor` (Twitch_Monitor/twitch_monitor.py:83). The model keeps only the subscriptions made before the call (`Monitor.Made`). What becomes of the websocket started at line 65 depends on the Twitch library and is not modelled. A `get_users` answer without a `data` key counts as a raising lookup.
- Monitor.Made: a lookup's answer is a function of the login alone. So two lookups of one login get the same answer, although the network could answer them differently. Two records with one username, the only way to look one login up twice, arise only under the concurrent-add race named below.
- The `while True: sleep(3600)` loop and the async scheduling: nothing stateable happens after the subscriptions are made.
- Configuration loading with dotenv, logging, and `print` of fetch errors: configuration values are parameters, and log output carries no state.
- Declared column lengths (80, 300, 150): SQLite does not enforce them.
- SQLite's fallback to a random rowid once the largest id reaches 2^63-1: ids are unbounded integers. The 2^63-1 bound is modelled only where the remove route passes an id from the URL to the driver (`Registry.RemoveStreamer`).
- Lifecycle.RunPreservesInvariants: covers only requests handled one at a time. Each request is modelled as one atomic step. The Flask development server started at Twitch_Monitor/server.py:127 handles requests in threads, and the duplicate check at line 89 and the commit at line 101 are not one transaction. So two concurrent adds of one name can both pass the check, and then usernames are no longer distinct.
- Registry.Listing: the order of records with equal live flags is store order, which SQL does not promise. The properties stated as the route's promise are only that the listing is a permutation and that live records come first.
- `fetch_game_name_and_image` is modelled as `Decoding.DecodeGame`, but nothing in the source calls it, and `game_image_url` is never written. No operation of the model stores a decoded game.
- The Discord webhook URL read at Twitch_Monitor/twitch_monitor.py:18: nothing in the code uses it, so no notification is sent and none is modelled.

=== FILE: decoding.dfy ===
/**
 The pure part of the two HTTP fetchers of the web server: what they make of
 a response once it has arrived. A response is the optional `data` list of
 the JSON body: None stands for a body without `data` and for every failure
 the fetcher catches (network error, non-JSON body).
 */
module Decoding {
  import opened Wrappers
  import opened Text

  /** One element of the `data` list of the users endpoint. */
  datatype UserInfo = UserInfo(id: string, login: string, profileImageUrl: string)

  /** One element of the `data` list of the games endpoint. */
  datatype GameInfo = GameInfo(id: string, name: string, boxArtUrl: string)

  type Response<T> = Option<seq<T>>

  /** True when the response carries a non-empty `data` list. */
  predicate HasData<T>(resp: Response<T>) {
    resp.Some? && |resp.value| > 0
  }

  /** The box-art URL template's size placeholder and the fixed size the
      server substitutes for it. */
  const SizePlaceholder: string := "{width}x{height}"
  const DisplaySize: string := "40x40"

  lemma DisplaySizeIsSafe()
    ensures SafeReplacement(SizePlaceholder, DisplaySize)
  {
  }

  /** The box-art URL at display size: every placeholder replaced. */
  function ResizeBoxArt(url: string): (r: string)
    ensures !Contains(r, SizePlaceholder)
    ensures !Contains(url, SizePlaceholder) ==> r == url
  {
    ResizeFacts(url);
    ReplaceAll(url, SizePlaceholder, DisplaySize)
  }

  lemma ResizeFacts(url: string)
    ensures !Contains(ReplaceAll(url, SizePlaceholder, DisplaySize), SizePlaceholder)
    ensures !Contains(url, SizePlaceholder) ==> ReplaceAll(url, SizePlaceholder, DisplaySize) == url
  {
    DisplaySizeIsSafe();
    ReplaceRemovesAll(url, SizePlaceholder, DisplaySize);
    if !Contains(url, SizePlaceholder) {
      ReplaceAbsent(url, SizePlaceholder, DisplaySize);
    }
  }

  /** At the first placeholder, the URL is copied up to it, the placeholder
      becomes the display size, and resizing continues after it. Together
      with the second clause of `ResizeBoxArt` this fixes the resized URL of
      every template. */
  lemma ResizeFirstOccurrence(url: string, i: nat)
    requires OccursAt(url, SizePlaceholder, i)
    requires forall j :: 0 <= j < i ==> !OccursAt(url, SizePlaceholder, j)
    ensures ResizeBoxArt(url) ==
              url[..i] + DisplaySize + ResizeBoxArt(url[i + |SizePlaceholder|..])
  {
    ReplaceFirst(url, SizePlaceholder, DisplaySize, i);
  }

  /** Resizing an already resized URL changes nothing. */
  lemma ResizeIdempotent(url: string)
    ensures ResizeBoxArt(ResizeBoxArt(url)) == ResizeBoxArt(url)
  {
  }

  /** The profile-image lookup: the first user's image URL, or None when the
      response carries no user. */
  function DecodeProfileImage(resp: Response<UserInfo>): (r: Option<string>)
    ensures r.Some? <==> HasData(resp)
    ensures HasData(resp) ==> r.value == resp.value[0].profileImageUrl
  {
    if HasData(resp) then Some(resp.value[0].profileImageUrl) else None
  }

  /** The game lookup: the first game's name and its box-art URL at display
      size, or (None, None) when the response carries no game. */
  function DecodeGame(resp: Response<GameInfo>): (r: (Option<string>, Option<string>))
    ensures r.0.Some? <==> HasData(resp)
    ensures r.1.Some? <==> HasData(resp)
    ensures HasData(resp) ==> r.0.value == resp.value[0].name
    ensures HasData(resp) ==> r.1.value == ResizeBoxArt(resp.value[0].boxArtUrl)
    ensures HasData(resp) ==> !Contains(r.1.value, SizePlaceholder)
    ensures HasData(resp) && !Contains(resp.value[0].boxArtUrl, SizePlaceholder) ==>
              r.1.value == resp.value[0].boxArtUrl
  {
    if HasData(resp) then
      var game := resp.value[0];
      (Some(game.name), Some(ResizeBoxArt(game.boxArtUrl)))
    else
      (None, None)
  }

  /** Only the first game counts: elements after it never change the result. */
  lemma DecodeGameFirstOnly(g: GameInfo, rest: seq<GameInfo>)
    ensures DecodeGame(Some([g] + rest)) == DecodeGame(Some([g]))
  {
  }

  /** A concrete box-art template, resized. */
  lemma ResizeExample()
    ensures ResizeBoxArt("{width}x{height}.jpg") == "40x40.jpg"
  {
    var url := "{width}x{height}.jpg";
    assert url[..|SizePlaceholder|] == SizePlaceholder;
    assert url[|SizePlaceholder|..] == ".jpg";
  }
}

=== FILE: events.dfy ===
/**
 The monitor's event handlers: each notification from the event stream
 updates some fields of the first record whose username equals the
 broadcaster's login, and nothing else.
 */
module Events {
  import opened Wrappers
  import opened Models

  /** The three notifications the monitor subscribes to. `broadcasterId` is
      carried by every event but no handler uses it. */
  datatype Event =
    | StreamOnline(broadcasterId: string, login: string)
    | StreamOffline(broadcasterId: string, login: string)
    | ChannelUpdate(broadcasterId: string, login: string, title: string, categoryName: string)

  /** `k` is the index of the first record named `login`. */
  predicate FirstMatchAt(s: Store, login: string, k: int) {
    0 <= k < |s| && s[k].username == login
    && forall j :: 0 <= j < k ==> s[j].username != login
  }

  /** The username lookup of the handlers (`filter_by(...).first()`). */
  function FirstMatch(s: Store, login: string): (r: Option<nat>)
    ensures r.None? <==> !HasUsername(s, login)
    ensures r.Some? ==> FirstMatchAt(s, login, r.value)
  {
    if |s| == 0 then None
    else if s[0].username == login then Some(0)
    else match FirstMatch(s[1..], login)
      case None => None
      case Some(k) => Some(k + 1)
  }

  /** Only one index can be the first match. */
  lemma FirstMatchUnique(s: Store, login: string, k: int, k': int)
    requires FirstMatchAt(s, login, k) && FirstMatchAt(s, login, k')
    ensures k == k'
  {
  }

  /** With distinct usernames, the first match is simply the match. */
  lemma FirstMatchIsOnlyMatch(s: Store, login: string, k: int)
    requires DistinctUsernames(s)
    requires 0 <= k < |s|
    ensures FirstMatchAt(s, login, k) <==> s[k].username == login
  {
  }

  /** `stream.online`: the matching record becomes live. */
  function OnStreamOnline(s: Store, login: string): (r: Store)
    ensures |r| == |s|
    ensures forall i :: 0 <= i < |s| ==>
              r[i] == s[i].(isLive := if FirstMatchAt(s, login, i) then true else s[i].isLive)
  {
    match FirstMatch(s, login)
    case None => s
    case Some(k) => s[k := s[k].(isLive := true)]
  }

  /** `stream.offline`: the matching record stops being live. */
  function OnStreamOffline(s: Store, login: string): (r: Store)
    ensures |r| == |s|
    ensures forall i :: 0 <= i < |s| ==>
              r[i] == s[i].(isLive := if FirstMatchAt(s, login, i) then false else s[i].isLive)
  {
    match FirstMatch(s, login)
    case None => s
    case Some(k) => s[k := s[k].(isLive := false)]
  }

  /** `channel.update`: the matching record takes the event's title and
      category name; its live flag and image URLs are left as they were. */
  function OnChannelUpdate(s: Store, login: string, title: string, game: string): (r: Store)
    ensures |r| == |s|
    ensures forall i :: 0 <= i < |s| ==>
              if FirstMatchAt(s, login, i)
              then r[i] == s[i].(streamTitle := title, gameName := game)
              else r[i] == s[i]
  {
    match FirstMatch(s, login)
    case None => s
    case Some(k) => s[k := s[k].(streamTitle := title, gameName := game)]
  }

  /** Dispatches an event to its handler. */
  function Handle(s: Store, e: Event): (r: Store)
    ensures |r| == |s|
    ensures !HasUsername(s, e.login) ==> r == s
    ensures forall i :: 0 <= i < |s| && !FirstMatchAt(s, e.login, i) ==> r[i] == s[i]
    ensures forall i :: 0 <= i < |s| ==>
              && r[i].id == s[i].id
              && r[i].username == s[i].username
              && r[i].profileImageUrl == s[i].profileImageUrl
              && r[i].gameImageUrl == s[i].gameImageUrl
  {
    match e
    case StreamOnline(_, login) => OnStreamOnline(s, login)
    case StreamOffline(_, login) => OnStreamOffline(s, login)
    case ChannelUpdate(_, login, title, game) => OnChannelUpdate(s, login, title, game)
  }

  /** The broadcaster id of an event never influences the store. */
  lemma HandleIgnoresBroadcasterId(s: Store, e: Event, id: string)
    ensures Handle(s, e.(broadcasterId := id)) == Handle(s, e)
  {
  }

  /** Stores with the same usernames, position by position, have the same
      first matches. */
  lemma SameUsernamesSameMatches(s: Store, t: Store, login: string, k: int)
    requires |s| == |t|
    requires forall i :: 0 <= i < |s| ==> s[i].username == t[i].username
    ensures FirstMatchAt(s, login, k) <==> FirstMatchAt(t, login, k)
  {
  }

  /** Delivering the same event twice has the effect of delivering it once. */
  lemma HandleIdempotent(s: Store, e: Event)
    ensures Handle(Handle(s, e), e) == Handle(s, e)
  {
  }

  /** No handler inserts or deletes records, and the invariants of the store
      survive every event. */
  lemma HandlePreservesInvariants(s: Store, e: Event)
    ensures Ids(Handle(s, e)) == Ids(s)
    ensures DistinctIds(s) ==> DistinctIds(Handle(s, e))
    ensures DistinctUsernames(s) ==> DistinctUsernames(Handle(s, e))
  {
  }

  /** The last liveness event wins: going offline after going online leaves
      the same store as going offline directly, and vice versa. */
  lemma LastLivenessWins(s: Store, login: string)
    ensures OnStreamOffline(OnStreamOnline(s, login), login) == OnStreamOffline(s, login)
    ensures OnStreamOnline(OnStreamOffline(s, login), login) == OnStreamOnline(s, login)
  {
  }

  /** Events for different logins touch different records, so their order
      does not matter. */
  lemma {:induction false} DistinctLoginsCommute(s: Store, e1: Event, e2: Event)
    requires e1.login != e2.login
    ensures Handle(Handle(s, e1), e2) == Handle(Handle(s, e2), e1)
  {
    var a := Handle(s, e1);
    var b := Handle(s, e2);
    var ab := Handle(a, e2);
    var ba := Handle(b, e1);
    forall i | 0 <= i < |s|
      ensures ab[i] == ba[i]
    {
      SameUsernamesSameMatches(s, a, e2.login, i);
      SameUsernamesSameMatches(s, b, e1.login, i);
    }
  }
}

=== FILE: lifecycle.dfy ===
/**
 The store over its whole life: any interleaving of the web server's add and
 remove requests with the monitor's events, each taken as one atomic step.
 */
module Lifecycle {
  import opened Wrappers
  import opened Models
  import opened Decoding
  import opened Registry
  import opened Events

  /** One request or notification that can reach the store. `admin` is the
      configured admin password at the time of the request. */
  datatype Op =
    | AddRequest(submitted: Option<string>, admin: Option<string>, rawName: string,
                 profile: Response<UserInfo>)
    | RemoveRequest(submitted: Option<string>, admin: Option<string>, id: nat)
    | Notification(e: Event)

  /** One operation applied to the store, as one atomic step. */
  function Step(s: Store, op: Op): Store {
    match op
    case AddRequest(pw, admin, name, profile) => AddStreamer(s, pw, admin, name, profile).store
    case RemoveRequest(pw, admin, id) => RemoveStreamer(s, pw, admin, id).store
    case Notification(e) => Handle(s, e)
  }

  function Run(s: Store, ops: seq<Op>): Store
    decreases |ops|
  {
    if |ops| == 0 then s else Run(Step(s, ops[0]), ops[1..])
  }

  /** Starting from an empty table, or any store with unique ids and
      usernames, every sequence of operations keeps both unique. */
  lemma {:induction false} RunPreservesInvariants(s: Store, ops: seq<Op>)
    requires DistinctIds(s) && DistinctUsernames(s)
    ensures DistinctIds(Run(s, ops)) && DistinctUsernames(Run(s, ops))
    decreases |ops|
  {
    if |ops| > 0 {
      StepPreservesInvariants(s, ops[0]);
      RunPreservesInvariants(Step(s, ops[0]), ops[1..]);
    }
  }

  /** A single request or notification keeps ids and usernames unique. */
  lemma StepPreservesInvariants(s: Store, op: Op)
    requires DistinctIds(s) && DistinctUsernames(s)
    ensures DistinctIds(Step(s, op)) && DistinctUsernames(Step(s, op))
  {
    match op {
      case AddRequest(pw, admin, name, profile) =>
        AddPreservesInvariants(s, pw, admin, name, profile);
      case RemoveRequest(pw, admin, id) =>
        RemoveExactly(s, pw, admin, id);
      case Notification(e) =>
        HandlePreservesInvariants(s, e);
    }
  }

  /** A sequence of requests that all fail the password gate leaves the
      store unchanged. */
  lemma {:induction false} DeniedRequestsAreInert(s: Store, ops: seq<Op>)
    requires forall k :: 0 <= k < |ops| ==> !ops[k].Notification? && ops[k].submitted != ops[k].admin
    ensures Run(s, ops) == s
    decreases |ops|
  {
    if |ops| > 0 {
      DeniedRequestsAreInert(Step(s, ops[0]), ops[1..]);
    }
  }
}

=== FILE: models.dfy ===
/**
 The persisted record of one tracked streamer (the `TwitchUser` table) and
 the facts about a whole store of them that the rest of the model relies on.
 The store is a sequence of records in insertion (rowid) order.
 */
module Models {
  import opened Wrappers

  /** One row of the `TwitchUser` table. `username` is a required column, so it
      is a plain string. The other text columns all have a default, so the ORM
      never writes NULL into them (see `NewUser`). */
  datatype TwitchUser = TwitchUser(
    id: int,
    username: string,
    isLive: bool,
    profileImageUrl: string,
    streamTitle: string,
    gameName: string,
    gameImageUrl: string
  )

  type Store = seq<TwitchUser>

  /** A record built the way the ORM builds one from a username and an
      optional profile image. Every column that is not given takes its declared
      default, and so does a column given as None: the ORM leaves a None value
      out of the INSERT when the column has a default, so the default `""` is
      stored rather than NULL. */
  function NewUser(id: int, username: string, profileImageUrl: Option<string>): (u: TwitchUser)
    ensures u.id == id && u.username == username
    ensures profileImageUrl.Some? ==> u.profileImageUrl == profileImageUrl.value
    ensures profileImageUrl.None? ==> u.profileImageUrl == ""
    ensures !u.isLive
    ensures u.streamTitle == "" && u.gameName == "" && u.gameImageUrl == ""
  {
    var image := match profileImageUrl
      case Some(url) => url
      case None => "";
    TwitchUser(id, username, false, image, "", "", "")
  }

  /** The primary-key fact of the schema: no two records share an id. */
  ghost predicate DistinctIds(s: Store) {
    forall i, j :: 0 <= i < |s| && 0 <= j < |s| && i != j ==> s[i].id != s[j].id
  }

  /** Usernames are pairwise distinct. The schema does NOT declare this; it
      holds while requests are handled one at a time, because adding a
      streamer refuses a name already stored. */
  ghost predicate DistinctUsernames(s: Store) {
    forall i, j :: 0 <= i < |s| && 0 <= j < |s| && i != j ==> s[i].username != s[j].username
  }

  predicate HasId(s: Store, id: int) {
    exists i :: 0 <= i < |s| && s[i].id == id
  }

  predicate HasUsername(s: Store, name: string) {
    exists i :: 0 <= i < |s| && s[i].username == name
  }

  /** The ids of the store, as a set. */
  function Ids(s: Store): (r: set<int>)
    ensures forall id :: id in r <==> HasId(s, id)
  {
    set i | 0 <= i < |s| :: s[i].id
  }

  /** The largest id in a non-empty store. */
  function MaxId(s: Store): (m: int)
    requires |s| > 0
    ensures forall i :: 0 <= i < |s| ==> s[i].id <= m
    ensures HasId(s, m)
  {
    if |s| == 1 then s[0].id
    else
      var rest := MaxId(s[1..]);
      if s[0].id >= rest then s[0].id else rest
  }

  /** The id SQLite gives the next inserted row of a rowid table: 1 when the
      table is empty, otherwise one more than the largest id in use. */
  function NextId(s: Store): (id: int)
    ensures !HasId(s, id)
    ensures |s| == 0 ==> id == 1
    ensures forall i :: 0 <= i < |s| ==> s[i].id < id
  {
    if |s| == 0 then 1 else MaxId(s) + 1
  }
}

=== FILE: monitor.dfy ===
/**
 The start-up of the monitor: for every tracked user it looks the login up
 and, when the lookup finds the user, subscribes the three handlers to that
 user's broadcaster id. Nothing in the loop catches an exception, so the first
 call that raises ends it.
 */
module Monitor {
  import opened Wrappers
  import opened Models
  import opened Decoding

  datatype Topic = Online | Offline | Update

  /** One subscription: the topic (which fixes the handler) and the
      broadcaster id it listens to. */
  datatype Subscription = Subscription(topic: Topic, broadcasterId: string)

  /** The users endpoint as seen at start-up: the `data` list it returns for
      a login, or None when the call raises (a network error, a login the API
      rejects, or an answer without `data`). */
  type Lookup = string -> Option<seq<UserInfo>>

  /** The subscription calls as seen at start-up: `listen(made, s)` is false
      when the `listen_*` call for `s` raises, given the subscriptions `made`
      earlier in the same run. A call can depend on them: Twitch refuses a
      subscription that already exists, for one. */
  type Listen = (seq<Subscription>, Subscription) -> bool

  /** The subscriptions made for one broadcaster id, in the order they are made. */
  function Triple(id: string): (r: seq<Subscription>)
    ensures |r| == 3
    ensures Subscription(Online, id) in r && Subscription(Offline, id) in r
    ensures Subscription(Update, id) in r
    ensures forall x :: x in r ==> x.broadcasterId == id
  {
    [Subscription(Online, id), Subscription(Offline, id), Subscription(Update, id)]
  }

  /** The lookup of user `i` found that user, with broadcaster id `id`. */
  predicate FoundAt(users: Store, lookup: Lookup, i: int, id: string) {
    && 0 <= i < |users|
    && lookup(users[i].username).Some?
    && |lookup(users[i].username).value| > 0
    && lookup(users[i].username).value[0].id == id
  }

  /** The subscriptions made for one user: none when the lookup found nothing. */
  function SubscriptionsFor(u: TwitchUser, lookup: Lookup): (r: seq<Subscription>)
    ensures |r| == 0 || |r| == 3
    ensures |r| == 3 <==> lookup(u.username).Some? && |lookup(u.username).value| > 0
    ensures forall x :: x in r ==>
              lookup(u.username).Some? && |lookup(u.username).value| > 0 &&
              x.broadcasterId == lookup(u.username).value[0].id
  {
    match lookup(u.username)
    case Some(data) => if |data| > 0 then Triple(data[0].id) else []
    case None => []
  }

  /** The subscriptions made for `users`, in order, when no call raises:
      three per user the lookup found. */
  function Subscriptions(users: Store, lookup: Lookup): (r: seq<Subscription>)
    ensures |r| == 3 * FoundCount(users, lookup)
  {
    if |users| == 0 then []
    else
      var n := |users| - 1;
      Subscriptions(users[..n], lookup) + SubscriptionsFor(users[n], lookup)
  }

  /** The number of users the lookup found. */
  function FoundCount(users: Store, lookup: Lookup): nat {
    if |users| == 0 then 0
    else
      var n := |users| - 1;
      var answer := lookup(users[n].username);
      FoundCount(users[..n], lookup) + (if answer.Some? && |answer.value| > 0 then 1 else 0)
  }

  /** A subscription is made exactly for the ids of the users the lookup
      found, on every topic. */
  lemma SubscribedIffFound(users: Store, lookup: Lookup, t: Topic, id: string)
    ensures Subscription(t, id) in Subscriptions(users, lookup) <==>
              exists i :: FoundAt(users, lookup, i, id)
  {
    if Subscription(t, id) in Subscriptions(users, lookup) {
      SubscribedOnlyIfFound(users, lookup, t, id);
    }
    if exists i :: FoundAt(users, lookup, i, id) {
      var i :| FoundAt(users, lookup, i, id);
      FoundIsSubscribed(users, lookup, t, id, i);
    }
  }

  /** Every subscription comes from a user the lookup found. */
  lemma {:induction false} SubscribedOnlyIfFound(users: Store, lookup: Lookup, t: Topic, id: string)
    requires Subscription(t, id) in Subscriptions(users, lookup)
    ensures exists i :: FoundAt(users, lookup, i, id)
    decreases |users|
  {
    assert |users| > 0;
    var n := |users| - 1;
    if Subscription(t, id) in Subscriptions(users[..n], lookup) {
      SubscribedOnlyIfFound(users[..n], lookup, t, id);
      var i :| FoundAt(users[..n], lookup, i, id);
      assert FoundAt(users, lookup, i, id);
    } else {
      SubscribedForIff(users[n], lookup, t, id);
      assert FoundAt(users, lookup, n, id);
    }
  }

  /** Every user the lookup found is subscribed on every topic. */
  lemma {:induction false} FoundIsSubscribed(users: Store, lookup: Lookup, t: Topic, id: string, i: int)
    requires FoundAt(users, lookup, i, id)
    ensures Subscription(t, id) in Subscriptions(users, lookup)
    decreases |users|
  {
    var n := |users| - 1;
    if i < n {
      assert FoundAt(users[..n], lookup, i, id);
      FoundIsSubscribed(users[..n], lookup, t, id, i);
    } else {
      SubscribedForIff(users[n], lookup, t, id);
    }
  }

  /** One user's subscriptions hold an id exactly when the lookup found the
      user with that id. */
  lemma SubscribedForIff(u: TwitchUser, lookup: Lookup, t: Topic, id: string)
    ensures Subscription(t, id) in SubscriptionsFor(u, lookup) <==>
              && lookup(u.username).Some?
              && |lookup(u.username).value| > 0
              && lookup(u.username).value[0].id == id
  {
  }

  /** The number of calls, in order, that return before the first one that
      raises: all of them when none raises. */
  function Returned<T>(calls: seq<T>, ok: T -> bool): (n: nat)
    ensures n <= |calls|
    ensures forall j :: 0 <= j < n ==> ok(calls[j])
    ensures n < |calls| ==> !ok(calls[n])
    decreases |calls|
  {
    if |calls| == 0 || !ok(calls[0]) then 0 else 1 + Returned(calls[1..], ok)
  }

  /** The three properties of `Returned` determine it. */
  lemma ReturnedIs<T>(calls: seq<T>, ok: T -> bool, n: nat)
    requires n <= |calls|
    requires forall j :: 0 <= j < n ==> ok(calls[j])
    requires n < |calls| ==> !ok(calls[n])
    ensures Returned(calls, ok) == n
  {
  }

  /** The number of users whose lookup returns before the first that raises. */
  function LookupsReturned(users: Store, lookup: Lookup): (k: nat)
    ensures k <= |users|
    ensures forall j :: 0 <= j < k ==> lookup(users[j].username).Some?
    ensures k < |users| ==> lookup(users[k].username).None?
  {
    Returned(users, (u: TwitchUser) => lookup(u.username).Some?)
  }

  /** Call `j` of `calls` returns when it follows `made` and the calls
      before it. */
  predicate AcceptedAt<T>(made: seq<T>, calls: seq<T>, ok: (seq<T>, T) -> bool, j: int) {
    0 <= j < |calls| && ok(made + calls[..j], calls[j])
  }

  /** The number of `calls`, in order, that return when they follow `made`:
      each call sees `made` and every call before it. */
  function Accepted<T>(made: seq<T>, calls: seq<T>, ok: (seq<T>, T) -> bool): (n: nat)
    ensures n <= |calls|
    ensures forall j :: 0 <= j < n ==> AcceptedAt(made, calls, ok, j)
    ensures n < |calls| ==> !AcceptedAt(made, calls, ok, n)
  {
    AcceptedFrom(made, calls, ok, 0)
  }

  /** The scan behind `Accepted`, from call `i` on. */
  function AcceptedFrom<T>(made: seq<T>, calls: seq<T>, ok: (seq<T>, T) -> bool, i: nat): (n: nat)
    requires i <= |calls|
    ensures i <= n <= |calls|
    ensures forall j :: i <= j < n ==> AcceptedAt(made, calls, ok, j)
    ensures n < |calls| ==> !AcceptedAt(made, calls, ok, n)
    decreases |calls| - i
  {
    if i == |calls| || !ok(made + calls[..i], calls[i]) then i
    else AcceptedFrom(made, calls, ok, i + 1)
  }

  /** The three properties of `Accepted` determine it. */
  lemma AcceptedIs<T>(made: seq<T>, calls: seq<T>, ok: (seq<T>, T) -> bool, n: nat)
    requires n <= |calls|
    requires forall j :: 0 <= j < n ==> AcceptedAt(made, calls, ok, j)
    requires n < |calls| ==> !AcceptedAt(made, calls, ok, n)
    ensures Accepted(made, calls, ok) == n
  {
    AcceptedFromIs(made, calls, ok, 0, n);
  }

  lemma {:induction false} AcceptedFromIs<T>(made: seq<T>, calls: seq<T>, ok: (seq<T>, T) -> bool, i: nat, n: nat)
    requires i <= n <= |calls|
    requires forall j :: i <= j < n ==> AcceptedAt(made, calls, ok, j)
    requires n < |calls| ==> !AcceptedAt(made, calls, ok, n)
    ensures AcceptedFrom(made, calls, ok, i) == n
    decreases n - i
  {
    if i < n {
      AcceptedFromIs(made, calls, ok, i + 1, n);
    }
  }

  /** Every call of `calls` returned, each seeing the calls before it. */
  predicate AllAccepted<T>(calls: seq<T>, ok: (seq<T>, T) -> bool) {
    forall j :: 0 <= j < |calls| ==> AcceptedAt([], calls, ok, j)
  }

  /** Calls that all return, followed by calls that all return after them,
      form one run of calls that all return. */
  lemma AcceptedConcat<T>(p: seq<T>, t: seq<T>, ok: (seq<T>, T) -> bool)
    requires AllAccepted(p, ok)
    requires forall j :: 0 <= j < |t| ==> AcceptedAt(p, t, ok, j)
    ensures AllAccepted(p + t, ok)
  {
    var c := p + t;
    forall j | 0 <= j < |c|
      ensures AcceptedAt([], c, ok, j)
    {
      if j < |p| {
        assert AcceptedAt([], p, ok, j);
        assert [] + c[..j] == [] + p[..j];
        assert c[j] == p[j];
      } else {
        assert AcceptedAt(p, t, ok, j - |p|);
        assert [] + c[..j] == p + t[..j - |p|];
        assert c[j] == t[j - |p|];
      }
    }
  }

  /** The subscriptions the loop makes: those of the users looked up before
      the first lookup that raises, cut at the first subscription call that
      raises. It is a prefix of the reference list, every subscription in it
      was accepted after the ones before it, and it is the whole list when no
      call raises. */
  function Made(users: Store, lookup: Lookup, listen: Listen): (r: seq<Subscription>)
    ensures r <= Subscriptions(users, lookup)
    ensures AllAccepted(r, listen)
    ensures (forall i :: 0 <= i < |users| ==> lookup(users[i].username).Some?) &&
            AllAccepted(Subscriptions(users, lookup), listen) ==>
              r == Subscriptions(users, lookup)
  {
    var k := LookupsReturned(users, lookup);
    var attempted := Subscriptions(users[..k], lookup);
    SubscriptionsPrefix(users, lookup, k, |users|);
    assert users[..|users|] == users;
    var n := Accepted([], attempted, listen);
    MadeAccepted(attempted, listen, n);
    attempted[..n]
  }

  /** The accepted prefix of a run of calls is a run of calls that all return. */
  lemma MadeAccepted<T>(calls: seq<T>, ok: (seq<T>, T) -> bool, n: nat)
    requires n == Accepted([], calls, ok)
    ensures AllAccepted(calls[..n], ok)
    ensures AllAccepted(calls, ok) ==> n == |calls|
  {
    var r := calls[..n];
    forall j | 0 <= j < |r|
      ensures AcceptedAt([], r, ok, j)
    {
      assert AcceptedAt([], calls, ok, j);
      assert [] + r[..j] == [] + calls[..j];
    }
  }

  /** The subscriptions of a shorter prefix of the users come first among
      those of a longer one. */
  lemma {:induction false} SubscriptionsPrefix(users: Store, lookup: Lookup, i: nat, k: nat)
    requires i <= k <= |users|
    ensures Subscriptions(users[..i], lookup) <= Subscriptions(users[..k], lookup)
    decreases k - i
  {
    if i < k {
      SubscriptionsPrefix(users, lookup, i, k - 1);
      assert users[..k][..k - 1] == users[..k - 1];
    }
  }

  /** When the lookups stop at user `i` (or there are no more users) and all
      subscriptions so far were accepted, the loop has made them all. */
  lemma MadeAtLookupStop(users: Store, lookup: Lookup, listen: Listen, i: nat)
    requires i == LookupsReturned(users, lookup)
    requires AllAccepted(Subscriptions(users[..i], lookup), listen)
    ensures Made(users, lookup, listen) == Subscriptions(users[..i], lookup)
  {
    var subs := Subscriptions(users[..i], lookup);
    MadeAccepted(subs, listen, Accepted([], subs, listen));
  }

  /** When the `n`-th subscription call for user `i` raises, the loop has
      made the earlier users' subscriptions and the first `n` of user `i`. */
  lemma MadeAtListenStop(users: Store, lookup: Lookup, listen: Listen, i: nat, n: nat)
    requires i < LookupsReturned(users, lookup)
    requires AllAccepted(Subscriptions(users[..i], lookup), listen)
    requires n == Accepted(Subscriptions(users[..i], lookup), SubscriptionsFor(users[i], lookup), listen)
    requires n < |SubscriptionsFor(users[i], lookup)|
    ensures Made(users, lookup, listen) ==
              Subscriptions(users[..i], lookup) + SubscriptionsFor(users[i], lookup)[..n]
  {
    var k := LookupsReturned(users, lookup);
    var p := Subscriptions(users[..i], lookup);
    var t := SubscriptionsFor(users[i], lookup);
    assert users[..i + 1][..i] == users[..i];
    SubscriptionsPrefix(users, lookup, i + 1, k);
    AcceptedAfter(Subscriptions(users[..k], lookup), p, t, listen);
  }

  /** Calls after a prefix that all return: the first call that raises is
      the first one in the rest that raises. */
  lemma AcceptedAfter<T>(calls: seq<T>, p: seq<T>, rest: seq<T>, ok: (seq<T>, T) -> bool)
    requires p + rest <= calls
    requires AllAccepted(p, ok)
    requires Accepted(p, rest, ok) < |rest|
    ensures Accepted([], calls, ok) == |p| + Accepted(p, rest, ok)
    ensures calls[..Accepted([], calls, ok)] == p + rest[..Accepted(p, rest, ok)]
  {
    var m := Accepted(p, rest, ok);
    FirstFailureAfter(calls, p, rest, ok, m);
    AcceptedIs([], calls, ok, |p| + m);
  }

  /** If every call of `p` returns and the calls of `rest` after it first
      raise at `m`, then a sequence that starts with `p + rest` first raises
      at `|p| + m`. */
  lemma FirstFailureAfter<T>(calls: seq<T>, p: seq<T>, rest: seq<T>, ok: (seq<T>, T) -> bool, m: nat)
    requires p + rest <= calls
    requires AllAccepted(p, ok)
    requires m < |rest|
    requires forall j :: 0 <= j < m ==> AcceptedAt(p, rest, ok, j)
    requires !AcceptedAt(p, rest, ok, m)
    ensures |p| + m < |calls|
    ensures forall j :: 0 <= j < |p| + m ==> AcceptedAt([], calls, ok, j)
    ensures !AcceptedAt([], calls, ok, |p| + m)
    ensures calls[..|p| + m] == p + rest[..m]
  {
    var joined := p + rest;
    assert calls[..|p| + m] == joined[..|p| + m];
    assert joined[..|p| + m] == p + rest[..m];
    assert calls[|p| + m] == joined[|p| + m];
    forall j | 0 <= j < |p| + m
      ensures AcceptedAt([], calls, ok, j)
    {
      assert calls[..j] == joined[..j];
      assert calls[j] == joined[j];
      if j < |p| {
        assert AcceptedAt([], p, ok, j);
        assert [] + joined[..j] == [] + p[..j];
      } else {
        assert AcceptedAt(p, rest, ok, j - |p|);
        assert [] + joined[..j] == p + rest[..j - |p|];
      }
    }
    assert [] + calls[..|p| + m] == p + rest[..m];
  }

  /** The loop has handled the first `i` users without a raising call:
      none of their lookups raised and it made all their subscriptions. */
  ghost predicate Progress(users: Store, lookup: Lookup, listen: Listen, i: int, subs: seq<Subscription>) {
    && 0 <= i <= |users|
    && i <= LookupsReturned(users, lookup)
    && subs == Subscriptions(users[..i], lookup)
    && AllAccepted(subs, listen)
  }

  /** A user whose lookup answers with an empty `data` list is skipped. */
  lemma ProgressSkip(users: Store, lookup: Lookup, listen: Listen, i: nat, subs: seq<Subscription>)
    requires Progress(users, lookup, listen, i, subs) && i < |users|
    requires lookup(users[i].username).Some? && |lookup(users[i].username).value| == 0
    ensures Progress(users, lookup, listen, i + 1, subs)
  {
    assert users[..i + 1][..i] == users[..i];
  }

  /** A found user whose three subscriptions are all accepted is done. */
  lemma ProgressFound(users: Store, lookup: Lookup, listen: Listen, i: nat, subs: seq<Subscription>)
    requires Progress(users, lookup, listen, i, subs) && i < |users|
    requires lookup(users[i].username).Some? && |lookup(users[i].username).value| > 0
    requires Accepted(subs, SubscriptionsFor(users[i], lookup), listen) == 3
    ensures Progress(users, lookup, listen, i + 1, subs + SubscriptionsFor(users[i], lookup))
  {
    assert users[..i + 1][..i] == users[..i];
    AcceptedConcat(subs, SubscriptionsFor(users[i], lookup), listen);
  }

  /** The subscription loop of the monitor. Each user is looked up, and a
      found user gets its three subscriptions in order; the first call that
      raises ends the loop. */
  method SubscribeAll(users: Store, lookup: Lookup, listen: Listen) returns (subs: seq<Subscription>)
    ensures subs == Made(users, lookup, listen)
  {
    subs := [];
    var i := 0;
    var stopped := false;
    assert users[..0] == [];
    while i < |users| && !stopped
      invariant 0 <= i <= |users|
      invariant !stopped ==> Progress(users, lookup, listen, i, subs)
      invariant stopped ==> subs == Made(users, lookup, listen)
      decreases |users| - i, if stopped then 0 else 1
    {
      var answer := lookup(users[i].username);
      if answer.None? {
        MadeAtLookupStop(users, lookup, listen, i);
        stopped := true;
      } else if |answer.value| > 0 {
        var triple := Triple(answer.value[0].id);
        assert triple == SubscriptionsFor(users[i], lookup);
        var n := Accepted(subs, triple, listen);
        if n < 3 {
          MadeAtListenStop(users, lookup, listen, i, n);
          subs := subs + triple[..n];
          stopped := true;
        } else {
          ProgressFound(users, lookup, listen, i, subs);
          subs := subs + triple;
          i := i + 1;
        }
      } else {
        ProgressSkip(users, lookup, listen, i, subs);
        i := i + 1;
      }
    }
    if !stopped {
      MadeAtLookupStop(users, lookup, listen, i);
    }
  }

  /** A lookup that answers every login with the same single user. */
  function AnswerAll(info: UserInfo): Lookup {
    (login: string) => Some([info])
  }

  /** Subscription calls that raise exactly when the subscription was
      already made, as Twitch refuses a duplicate subscription. */
  function RefuseRepeats<T(==)>(made: seq<T>, s: T): bool {
    s !in made
  }

  /** Two stored users whose lookups resolve to one broadcaster id, such as
      the distinct logins "Ninja" and "ninja". When Twitch refuses a
      subscription that already exists, the second user's first call raises
      and the loop ends with the first user's three subscriptions. */
  lemma RepeatedIdStopsLoop(a: TwitchUser, b: TwitchUser, info: UserInfo)
    ensures Made([a, b], AnswerAll(info), RefuseRepeats) == Triple(info.id)
  {
    var users := [a, b];
    var trip := Triple(info.id);
    BothLookedUp(a, b, info);
    assert users[..2] == users;
    SecondTripleRefused(info.id);
    assert (trip + trip)[..3] == trip;
  }

  /** Both users are looked up, and each gets the same triple. */
  lemma BothLookedUp(a: TwitchUser, b: TwitchUser, info: UserInfo)
    ensures LookupsReturned([a, b], AnswerAll(info)) == 2
    ensures Subscriptions([a, b], AnswerAll(info)) == Triple(info.id) + Triple(info.id)
  {
    var users := [a, b];
    var lookup := AnswerAll(info);
    assert users[..1] == [a];
    assert users[..1][..0] == [];
    assert Subscriptions(users[..1], lookup) == Triple(info.id);
  }

  /** Under `RefuseRepeats`, the first call of a repeated triple is refused. */
  lemma SecondTripleRefused(id: string)
    ensures Accepted([], Triple(id) + Triple(id), RefuseRepeats) == 3
  {
    var on, off, up := Subscription(Online, id), Subscription(Offline, id), Subscription(Update, id);
    assert Triple(id) + Triple(id) == [on, off, up, on, off, up];
    RepeatRefused(on, off, up);
  }

  /** Under `RefuseRepeats`, three distinct calls made twice over stop at
      the first repeat. */
  lemma RepeatRefused<T>(x: T, y: T, z: T)
    requires x != y && y != z && x != z
    ensures Accepted([], [x, y, z, x, y, z], RefuseRepeats) == 3
  {
    var all := [x, y, z, x, y, z];
    assert [] + all[..0] == [];
    assert [] + all[..1] == [x];
    assert [] + all[..2] == [x, y];
    assert [] + all[..3] == [x, y, z];
    CallRefused([], all, RefuseRepeats, 3);
    CallAccepted([], all, RefuseRepeats, 2);
    CallAccepted([], all, RefuseRepeats, 1);
    CallAccepted([], all, RefuseRepeats, 0);
  }

  /** A call that returns passes the scan on to the next call. */
  lemma CallAccepted<T>(made: seq<T>, calls: seq<T>, ok: (seq<T>, T) -> bool, i: nat)
    requires AcceptedAt(made, calls, ok, i)
    ensures AcceptedFrom(made, calls, ok, i) == AcceptedFrom(made, calls, ok, i + 1)
  {
  }

  /** A call that raises ends the scan. */
  lemma CallRefused<T>(made: seq<T>, calls: seq<T>, ok: (seq<T>, T) -> bool, i: nat)
    requires i < |calls| && !AcceptedAt(made, calls, ok, i)
    ensures AcceptedFrom(made, calls, ok, i) == i
  {
  }
}

=== FILE: registry.dfy ===
/**
 The web server's registry operations on the store of tracked streamers:
 the password-gated add and remove routes and the order of the index page.
 */
module Registry {
  import opened Wrappers
  import opened Models
  import opened Text
  import opened Decoding

  /** What the route reports back to the page (its flash message).
      `Failed` is a route that raised: the server answers with an error page
      and flashes nothing. */
  datatype Outcome = Denied | AlreadyExists | Added | Removed | NotFound | Failed

  /** The largest value SQLite's INTEGER can hold. The driver raises
      OverflowError for a larger Python int passed as a query parameter. */
  const MaxSqliteInteger: int := 0x7FFF_FFFF_FFFF_FFFF

  datatype Reply = Reply(store: Store, outcome: Outcome)

  /** The password gate: the submitted form field and the configured admin
      password are both optional and are compared as such, so an absent
      password matches an absent configuration. */
  predicate Authorized(submitted: Option<string>, admin: Option<string>) {
    submitted == admin
  }

  /** With no admin password configured, add and remove requests without a
      password field get past the gate. */
  lemma UnconfiguredGateIsOpen(store: Store, rawName: string, profile: Response<UserInfo>, id: nat)
    ensures AddStreamer(store, None, None, rawName, profile).outcome != Denied
    ensures RemoveStreamer(store, None, None, id).outcome != Denied
  {
  }

  /** The add route. `rawName` is the submitted username field; `profile` is
      the response the profile-image fetch returns for the stripped name. */
  function AddStreamer(store: Store, submitted: Option<string>, admin: Option<string>,
                       rawName: string, profile: Response<UserInfo>): (r: Reply)
    ensures r.outcome in {Denied, AlreadyExists, Added}
    ensures r.outcome == Denied <==> !Authorized(submitted, admin)
    ensures r.outcome == AlreadyExists <==>
              Authorized(submitted, admin) && HasUsername(store, Strip(rawName))
    ensures r.outcome != Added ==> r.store == store
    ensures r.outcome == Added ==>
              && |r.store| == |store| + 1
              && r.store[..|store|] == store
              && var u := r.store[|store|];
                 && u.username == Strip(rawName)
                 && !HasId(store, u.id)
                 && !u.isLive
                 && (HasData(profile) ==> u.profileImageUrl == profile.value[0].profileImageUrl)
                 && (!HasData(profile) ==> u.profileImageUrl == "")
                 && u.streamTitle == "" && u.gameName == "" && u.gameImageUrl == ""
  {
    if !Authorized(submitted, admin) then Reply(store, Denied)
    else
      var name := Strip(rawName);
      if HasUsername(store, name) then Reply(store, AlreadyExists)
      else
        var u := NewUser(NextId(store), name, DecodeProfileImage(profile));
        assert (store + [u])[..|store|] == store;
        Reply(store + [u], Added)
  }

  /** Adding keeps ids unique and usernames pairwise distinct. */
  lemma AddPreservesInvariants(store: Store, submitted: Option<string>,
                               admin: Option<string>, rawName: string,
                               profile: Response<UserInfo>)
    requires DistinctIds(store) && DistinctUsernames(store)
    ensures var r := AddStreamer(store, submitted, admin, rawName, profile);
            DistinctIds(r.store) && DistinctUsernames(r.store)
  {
  }

  /** Adding the same name twice: the second attempt is refused, whatever its
      surrounding white space. */
  lemma AddTwiceRefused(store: Store, pw: Option<string>, name: string, name': string,
                        p: Response<UserInfo>, p': Response<UserInfo>)
    requires Strip(name) == Strip(name')
    ensures var r := AddStreamer(store, pw, pw, name, p);
            var r' := AddStreamer(r.store, pw, pw, name', p');
            r'.outcome == AlreadyExists && r'.store == r.store
  {
  }

  /** The index of the first record with the given id (the primary-key get). */
  function FindId(store: Store, id: int): (r: Option<nat>)
    ensures r.None? <==> !HasId(store, id)
    ensures r.Some? ==> r.value < |store| && store[r.value].id == id
    ensures r.Some? ==> forall j :: 0 <= j < r.value ==> store[j].id != id
  {
    if |store| == 0 then None
    else if store[0].id == id then Some(0)
    else match FindId(store[1..], id)
      case None => None
      case Some(k) => Some(k + 1)
  }

  /** The remove route for the record with primary key `id`. The URL
      converter accepts any run of digits; an id beyond SQLite's integer
      range makes the primary-key lookup raise. */
  function RemoveStreamer(store: Store, submitted: Option<string>, admin: Option<string>,
                          id: nat): (r: Reply)
    ensures r.outcome in {Denied, Failed, Removed, NotFound}
    ensures r.outcome == Denied <==> !Authorized(submitted, admin)
    ensures r.outcome == Failed <==> Authorized(submitted, admin) && id > MaxSqliteInteger
    ensures r.outcome == NotFound <==>
              Authorized(submitted, admin) && id <= MaxSqliteInteger && !HasId(store, id)
    ensures r.outcome != Removed ==> r.store == store
    ensures r.outcome == Removed ==>
              && |r.store| == |store| - 1
              && exists k :: 0 <= k < |store| && store[k].id == id
                               && r.store == store[..k] + store[k + 1..]
  {
    if !Authorized(submitted, admin) then Reply(store, Denied)
    else if id > MaxSqliteInteger then Reply(store, Failed)
    else match FindId(store, id)
      case None => Reply(store, NotFound)
      case Some(k) => Reply(store[..k] + store[k + 1..], Removed)
  }

  /** With unique ids, a successful removal deletes exactly the record with
      that id: it is gone, every other record stays, and ids and usernames
      remain distinct. */
  lemma RemoveExactly(store: Store, submitted: Option<string>, admin: Option<string>, id: nat)
    requires DistinctIds(store) && DistinctUsernames(store)
    ensures var r := RemoveStreamer(store, submitted, admin, id);
            && DistinctIds(r.store) && DistinctUsernames(r.store)
            && (r.outcome == Removed ==> !HasId(r.store, id))
            && (r.outcome == Removed ==>
                  forall u :: u in store && u.id != id ==> u in r.store)
            && (forall u :: u in r.store ==> u in store)
  {
    var r := RemoveStreamer(store, submitted, admin, id);
    if r.outcome == Removed {
      var k :| 0 <= k < |store| && store[k].id == id && r.store == store[..k] + store[k + 1..];
      DeletePreserves(store, k);
      forall i | 0 <= i < |r.store|
        ensures r.store[i].id != id
      {
        assert r.store[i] == store[Shift(i, k)];
      }
      forall u | u in store && u.id != id
        ensures u in r.store
      {
        var i :| 0 <= i < |store| && store[i] == u;
      }
    }
  }

  /** The index in the original store of index `i` after deleting index `k`. */
  function Shift(i: nat, k: nat): (j: nat)
    ensures j != k
  {
    if i < k then i else i + 1
  }

  /** Deleting the record at index `k` keeps the others, in order, and keeps
      ids and usernames distinct. */
  lemma DeletePreserves(s: Store, k: nat)
    requires k < |s|
    ensures var t := s[..k] + s[k + 1..];
            && |t| == |s| - 1
            && (forall i :: 0 <= i < |t| ==> t[i] == s[Shift(i, k)])
            && (forall i :: 0 <= i < |s| && i != k ==> s[i] in t)
            && (forall u :: u in t ==> u in s)
            && (DistinctIds(s) ==> DistinctIds(t))
            && (DistinctUsernames(s) ==> DistinctUsernames(t))
  {
  }

  /** The records of the store whose live flag is `live`, in store order. */
  function WithLive(s: Store, live: bool): (r: Store)
    ensures |r| <= |s|
    ensures forall i :: 0 <= i < |r| ==> r[i].isLive == live
    ensures forall u :: u in r <==> u in s && u.isLive == live
  {
    if |s| == 0 then []
    else if s[0].isLive == live then [s[0]] + WithLive(s[1..], live)
    else WithLive(s[1..], live)
  }

  /** The order of the index page: live records before the others. The query
      sorts on the live flag only; among records with equal flags this model
      keeps store order, which the database does not promise. */
  function Listing(s: Store): (r: Store)
    ensures multiset(r) == multiset(s)
    ensures forall i, j :: 0 <= i < j < |r| && r[j].isLive ==> r[i].isLive
  {
    WithLiveSplit(s);
    WithLive(s, true) + WithLive(s, false)
  }

  /** The live and offline parts together are the store, as a multiset. */
  lemma {:induction false} WithLiveSplit(s: Store)
    ensures multiset(WithLive(s, true)) + multiset(WithLive(s, false)) == multiset(s)
  {
    if |s| > 0 {
      WithLiveSplit(s[1..]);
      assert s == [s[0]] + s[1..];
      assert multiset(s) == multiset([s[0]]) + multiset(s[1..]);
      var flag := s[0].isLive;
      assert WithLive(s, flag) == [s[0]] + WithLive(s[1..], flag);
      assert WithLive(s, !flag) == WithLive(s[1..], !flag);
      assert multiset(WithLive(s, flag)) == multiset([s[0]]) + multiset(WithLive(s[1..], flag));
    }
  }

  /** The index page's query, as a single pass over the store. */
  method ListUsers(s: Store) returns (listing: Store)
    ensures multiset(listing) == multiset(s)
    ensures forall i, j :: 0 <= i < j < |listing| && listing[j].isLive ==> listing[i].isLive
    ensures listing == Listing(s)
  {
    var live: Store := [];
    var offline: Store := [];
    var n := 0;
    while n < |s|
      invariant 0 <= n <= |s|
      invariant live == WithLive(s[..n], true)
      invariant offline == WithLive(s[..n], false)
    {
      assert s[..n + 1] == s[..n] + [s[n]];
      WithLiveSnoc(s[..n], s[n], true);
      WithLiveSnoc(s[..n], s[n], false);
      if s[n].isLive {
        live := live + [s[n]];
      } else {
        offline := offline + [s[n]];
      }
      n := n + 1;
    }
    assert s[..n] == s;
    listing := live + offline;
    assert listing == Listing(s);
  }

  /** Filtering a store extended by one record. */
  lemma {:induction false} WithLiveSnoc(s: Store, u: TwitchUser, live: bool)
    ensures WithLive(s + [u], live) == WithLive(s, live) + (if u.isLive == live then [u] else [])
  {
    if |s| > 0 {
      assert (s + [u])[1..] == s[1..] + [u];
      WithLiveSnoc(s[1..], u, live);
    }
  }
}

=== FILE: text.dfy ===
/**
 The two string operations of the Python standard library the core relies on:
 `str.strip()` with no argument and `str.replace(old, new)` with a non-empty
 `old`.
 */
module Text {

  /** Python's `str.isspace` for one character: the ASCII controls 9-13 and
      28-31, the space, and the Unicode white-space separators. */
  predicate IsSpace(c: char) {
    var n := c as int;
    || 9 <= n <= 13
    || 28 <= n <= 32
    || n == 0x85 || n == 0xA0 || n == 0x1680
    || 0x2000 <= n <= 0x200A
    || n == 0x2028 || n == 0x2029 || n == 0x202F || n == 0x205F || n == 0x3000
  }

  /** True when `s` neither starts nor ends with white space. */
  predicate Trimmed(s: string) {
    |s| == 0 || (!IsSpace(s[0]) && !IsSpace(s[|s| - 1]))
  }

  /** Drops leading white space. */
  function TrimLeft(s: string): (r: string)
    ensures |r| <= |s| && r == s[|s| - |r|..]
    ensures forall i :: 0 <= i < |s| - |r| ==> IsSpace(s[i])
    ensures |r| > 0 ==> !IsSpace(r[0])
  {
    if |s| > 0 && IsSpace(s[0]) then TrimLeft(s[1..]) else s
  }

  /** Drops trailing white space. */
  function TrimRight(s: string): (r: string)
    ensures |r| <= |s| && r == s[..|r|]
    ensures forall i :: |r| <= i < |s| ==> IsSpace(s[i])
    ensures |r| > 0 ==> !IsSpace(r[|r| - 1])
  {
    if |s| > 0 && IsSpace(s[|s| - 1]) then TrimRight(s[..|s| - 1]) else s
  }

  /** `s.strip()`: the longest slice of `s` with no white space at either end,
      obtained by removing only white space. */
  function Strip(s: string): (r: string)
    ensures Trimmed(r)
    ensures exists i :: StrippedAt(s, r, i)
  {
    var left := TrimLeft(s);
    var r := TrimRight(left);
    StripSlice(s, left, r);
    r
  }

  /** Trimming on the left and then on the right leaves a slice of the input
      surrounded by white space only. */
  lemma StripSlice(s: string, left: string, r: string)
    requires |left| <= |s| && left == s[|s| - |left|..]
    requires forall k :: 0 <= k < |s| - |left| ==> IsSpace(s[k])
    requires |r| <= |left| && r == left[..|r|]
    requires forall k :: |r| <= k < |left| ==> IsSpace(left[k])
    ensures StrippedAt(s, r, |s| - |left|)
  {
  }

  /** `r` is the slice of `s` starting at `i`, and everything of `s` before and
      after that slice is white space. */
  predicate StrippedAt(s: string, r: string, i: int) {
    && 0 <= i <= |s| - |r|
    && r == s[i..i + |r|]
    && (forall k :: 0 <= k < i ==> IsSpace(s[k]))
    && (forall k :: i + |r| <= k < |s| ==> IsSpace(s[k]))
  }

  /** A string is left alone by `strip` exactly when it is already trimmed. */
  lemma StripFixpoint(s: string)
    ensures Strip(s) == s <==> Trimmed(s)
  {
  }

  /** Stripping twice is stripping once. */
  lemma StripIdempotent(s: string)
    ensures Strip(Strip(s)) == Strip(s)
  {
  }

  /** `pat` occurs in `s` starting at index `i`. */
  predicate OccursAt(s: string, pat: string, i: int) {
    0 <= i && i + |pat| <= |s| && s[i..i + |pat|] == pat
  }

  predicate Contains(s: string, pat: string) {
    exists i :: 0 <= i <= |s| && OccursAt(s, pat, i)
  }

  /** `s.replace(pat, rep)`: scans left to right and replaces every
      non-overlapping occurrence of `pat` by `rep`. */
  function ReplaceAll(s: string, pat: string, rep: string): (r: string)
    requires |pat| > 0
    decreases |s|
  {
    if |s| < |pat| then s
    else if s[..|pat|] == pat then rep + ReplaceAll(s[|pat|..], pat, rep)
    else [s[0]] + ReplaceAll(s[1..], pat, rep)
  }

  /** A string without the pattern is returned unchanged. */
  lemma {:induction false} ReplaceAbsent(s: string, pat: string, rep: string)
    requires |pat| > 0
    requires !Contains(s, pat)
    ensures ReplaceAll(s, pat, rep) == s
    decreases |s|
  {
    if |s| >= |pat| {
      assert !OccursAt(s, pat, 0);
      assert s[..|pat|] != pat;
      forall i | OccursAt(s[1..], pat, i)
        ensures false
      {
        assert s[1..][i..i + |pat|] == s[i + 1..i + 1 + |pat|];
        assert OccursAt(s, pat, i + 1);
      }
      ReplaceAbsent(s[1..], pat, rep);
    }
  }

  /** The replacement is pinned down at the first occurrence: everything
      before it is copied, the occurrence becomes `rep`, and the scan resumes
      right after it. With `ReplaceAbsent` this determines the output on
      every input. */
  lemma {:induction false} ReplaceFirst(s: string, pat: string, rep: string, i: nat)
    requires |pat| > 0
    requires OccursAt(s, pat, i)
    requires forall j :: 0 <= j < i ==> !OccursAt(s, pat, j)
    ensures ReplaceAll(s, pat, rep) == s[..i] + rep + ReplaceAll(s[i + |pat|..], pat, rep)
  {
    ReplaceBefore(s, pat, rep, i, s[i + |pat|..]);
  }

  /** `ReplaceFirst` with the rest of the string after the occurrence named,
      so that the induction on `i` keeps it fixed. */
  lemma {:induction false} ReplaceBefore(s: string, pat: string, rep: string, i: nat, rest: string)
    requires |pat| > 0
    requires OccursAt(s, pat, i)
    requires forall j :: 0 <= j < i ==> !OccursAt(s, pat, j)
    requires rest == s[i + |pat|..]
    ensures ReplaceAll(s, pat, rep) == s[..i] + rep + ReplaceAll(rest, pat, rep)
    decreases i
  {
    if i == 0 {
      ReplaceAtHead(s, pat, rep);
      assert s[..i] == [];
    } else {
      TailOccurrences(s, pat, i);
      SlicesAfterHead(s, i, |pat|);
      ReplaceBefore(s[1..], pat, rep, i - 1, rest);
      assert !OccursAt(s, pat, 0);
      ReplaceSkipsHead(s, pat, rep);
      ConsStep(s, i, ReplaceAll(s, pat, rep), ReplaceAll(s[1..], pat, rep), rep,
               ReplaceAll(rest, pat, rep));
    }
  }

  /** Putting the first element back in front of a result for the tail. */
  lemma ConsStep<T>(s: seq<T>, i: nat, whole: seq<T>, tail: seq<T>, mid: seq<T>, rest: seq<T>)
    requires 1 <= i <= |s|
    requires whole == [s[0]] + tail
    requires tail == s[1..][..i - 1] + mid + rest
    ensures whole == s[..i] + mid + rest
  {
    assert [s[0]] + s[1..][..i - 1] == s[..i];
  }

  /** The tail's slice after an index, as a slice of the whole sequence. */
  lemma SlicesAfterHead<T>(s: seq<T>, i: nat, k: nat)
    requires 1 <= i && i + k <= |s|
    ensures s[1..][i - 1 + k..] == s[i + k..]
  {
  }

  /** The first occurrence moves one place left in the tail. */
  lemma TailOccurrences(s: string, pat: string, i: nat)
    requires 1 <= i
    requires OccursAt(s, pat, i)
    requires forall j :: 0 <= j < i ==> !OccursAt(s, pat, j)
    ensures OccursAt(s[1..], pat, i - 1)
    ensures forall j :: 0 <= j < i - 1 ==> !OccursAt(s[1..], pat, j)
  {
    OccursInTail(s, pat, i - 1);
    forall j | 0 <= j < i - 1
      ensures !OccursAt(s[1..], pat, j)
    {
      OccursInTail(s, pat, j);
    }
  }

  /** An occurrence at `j` in the tail is an occurrence at `j + 1` in the
      string. */
  lemma OccursInTail(s: string, pat: string, j: nat)
    requires |s| > 0
    ensures OccursAt(s[1..], pat, j) <==> OccursAt(s, pat, j + 1)
  {
    if j + |pat| <= |s[1..]| {
      assert s[1..][j..j + |pat|] == s[j + 1..j + 1 + |pat|];
    }
  }

  /** An occurrence at the start is replaced, and the scan resumes after it. */
  lemma ReplaceAtHead(s: string, pat: string, rep: string)
    requires |pat| > 0
    requires OccursAt(s, pat, 0)
    ensures ReplaceAll(s, pat, rep) == rep + ReplaceAll(s[|pat|..], pat, rep)
  {
    assert s[..|pat|] == pat;
  }

  /** Without an occurrence at the start, the first character is copied. */
  lemma ReplaceSkipsHead(s: string, pat: string, rep: string)
    requires |pat| > 0 && |pat| <= |s|
    requires !OccursAt(s, pat, 0)
    ensures ReplaceAll(s, pat, rep) == [s[0]] + ReplaceAll(s[1..], pat, rep)
  {
    assert s[..|pat|] != pat;
  }

  /** The conditions under which a replacement cannot create a new occurrence
      of the pattern: the replacement is non-empty, it does not contain the
      pattern's first character, and its own first character does not occur
      in the rest of the pattern. */
  predicate SafeReplacement(pat: string, rep: string) {
    && |pat| > 0
    && |rep| > 0
    && (forall k :: 0 <= k < |rep| ==> rep[k] != pat[0])
    && (forall k :: 1 <= k < |pat| ==> pat[k] != rep[0])
  }

  /** An input that starts with the pattern produces an output that starts
      with the replacement. */
  lemma ReplaceHead(u: string, pat: string, rep: string)
    requires |pat| > 0
    ensures |pat| <= |u| && u[..|pat|] == pat ==>
              |rep| <= |ReplaceAll(u, pat, rep)| && ReplaceAll(u, pat, rep)[..|rep|] == rep
  {
  }

  /** If the output of a replacement starts with a string `w` in which the
      replacement's first character never appears, the input started with `w`
      too: no replacement was made within that prefix. */
  lemma {:induction false} ReplacePrefix(u: string, pat: string, rep: string, w: string)
    requires SafeReplacement(pat, rep)
    requires forall k :: 0 <= k < |w| ==> w[k] != rep[0]
    requires |w| <= |ReplaceAll(u, pat, rep)| && ReplaceAll(u, pat, rep)[..|w|] == w
    ensures |w| <= |u| && u[..|w|] == w
    decreases |u|
  {
    ReplaceHead(u, pat, rep);
    if |u| < |pat| || |w| == 0 {
    } else if u[..|pat|] == pat {
    } else {
      var t := ReplaceAll(u[1..], pat, rep);
      assert ReplaceAll(u, pat, rep) == [u[0]] + t;
      assert t[..|w| - 1] == w[1..];
      ReplacePrefix(u[1..], pat, rep, w[1..]);
      assert u[..|w|] == [u[0]] + u[1..][..|w| - 1];
    }
  }

  /** Past a prefix `x`, occurrences in `x + t` are the occurrences in `t`. */
  lemma OccursAfterPrefix(x: string, t: string, pat: string, i: int)
    requires |x| <= i
    ensures OccursAt(x + t, pat, i) <==> OccursAt(t, pat, i - |x|)
  {
  }

  /** A safe replacement put in front of a string free of the pattern does
      not create an occurrence. */
  lemma NoOccurrenceAfterReplacement(rep: string, t: string, pat: string)
    requires SafeReplacement(pat, rep)
    requires !Contains(t, pat)
    ensures !Contains(rep + t, pat)
  {
    var r := rep + t;
    forall i | 0 <= i <= |r|
      ensures !OccursAt(r, pat, i)
    {
      if i < |rep| {
        if i + |pat| <= |r| {
          assert r[i..i + |pat|][0] == rep[i];
        }
      } else {
        OccursAfterPrefix(rep, t, pat, i);
      }
    }
  }

  /** One character put in front of a string free of the pattern creates an
      occurrence only at the front. */
  lemma NoOccurrenceAfterChar(c: char, t: string, pat: string)
    requires !Contains(t, pat)
    requires !OccursAt([c] + t, pat, 0)
    ensures !Contains([c] + t, pat)
  {
    forall i | 1 <= i <= |[c] + t|
      ensures !OccursAt([c] + t, pat, i)
    {
      OccursAfterPrefix([c], t, pat, i);
    }
  }

  /** With a safe replacement, no occurrence of the pattern survives. */
  lemma {:induction false} ReplaceRemovesAll(s: string, pat: string, rep: string)
    requires SafeReplacement(pat, rep)
    ensures !Contains(ReplaceAll(s, pat, rep), pat)
    decreases |s|
  {
    if |s| < |pat| {
    } else if s[..|pat|] == pat {
      ReplaceRemovesAll(s[|pat|..], pat, rep);
      NoOccurrenceAfterReplacement(rep, ReplaceAll(s[|pat|..], pat, rep), pat);
    } else {
      var t := ReplaceAll(s[1..], pat, rep);
      ReplaceRemovesAll(s[1..], pat, rep);
      var r := [s[0]] + t;
      if OccursAt(r, pat, 0) {
        var w := pat[1..];
        assert r[0..|pat|] == pat;
        assert r[1..|pat|] == r[0..|pat|][1..] == w;
        assert t[..|w|] == r[1..|pat|];
        assert s[..|pat|] == [s[0]] + s[1..][..|w|];
        ReplacePrefix(s[1..], pat, rep, w);
      }
      NoOccurrenceAfterChar(s[0], t, pat);
    }
  }

  /** With a safe replacement, replacing a second time changes nothing. */
  lemma ReplaceIdempotent(s: string, pat: string, rep: string)
    requires SafeReplacement(pat, rep)
    ensures ReplaceAll(ReplaceAll(s, pat, rep), pat, rep) == ReplaceAll(s, pat, rep)
  {
    ReplaceRemovesAll(s, pat, rep);
    ReplaceAbsent(ReplaceAll(s, pat, rep), pat, rep);
  }
}

=== FILE: wrappers.dfy ===
/** Optional values: the model's stand-in for Python's `None`. */
module Wrappers {

  datatype Option<+T> = None | Some(value: T)
}
